=== FILE: README.md ===
# CropGuard front-end logic, modelled in Dafny

CropGuard is a React front end for a crop-insurance product. Almost all of it
is static content. The parts with behaviour worth stating precisely are five
page components. Each one is modelled here as pure functions over immutable
records:

- **Premium calculator** (`calculator.dfy`). A crop-rate table, a plan table
  (sum insured per acre and premium multiplier), and `calculatePremium`. It
  computes sum insured, gross premium, a 50% government subsidy and the net
  premium. Gross premium, subsidy and net premium are each rounded on their
  own with `Math.round`; the sum insured is not rounded.
- **Payment** (`payment.dfy`). `parsePremium` strips `₹` and `,` and then runs
  `parseInt`, falling back to 0. 18% GST is added to give the order total.
  `handlePayment` checks the chosen payment method.
- **Login** (`login.dfy`). The digit-only sanitisers for the mobile number
  (10 digits) and the OTP (6 digits), the send-OTP handler, submit validation,
  the submit button's enabling condition, and the tab switch.
- **Eligibility checklist** (`eligibility.dfy`). The list of ticked ids,
  changed by appending and filtering. The verdict "all five ticked" is
  computed from the list's length.
- **Registration** (`register.dfy`). The send-OTP guard, the state/district
  dependency, the enabling conditions of the two buttons, and the submit
  handler, which validates nothing itself.

Shared pieces:
- `money.dfy`: `Math.round`.
- `sequences.dfy`: the generic `filter`/`slice`.
- `text.dfy`: character classes, decimal digit strings and JavaScript's
  `parseInt(s, 10)`.
- `maybe.dfy`: an option type.

Money is exact. Amounts are `real`, and the table entries 1.5 and 1.2 are
exact decimals. `Math.round` is `floor(x + 0.5)`, so halves round toward
+infinity (`Math.round(-2.5)` is -2).

The login and registration pages have an event model (`Step`, `Run`), and
the eligibility checklist has a sequence of checkbox clicks (`Clicks`). The
calculator and payment pages are modelled by their handlers alone;
`HandlePayment` is not gated by `PayEnabled`. In the event models the rendered
page's gating is part of the model:
- A click on a button that is disabled or not rendered does nothing.
- Typing into a field, or clicking a button, that is not rendered does
  nothing. On the login page these are the password field off the password
  tab, the OTP field off the OTP tab or before an OTP is sent, and the "Get
  OTP" button off the OTP tab.
- The state drop-down offers only the listed states, and the district
  drop-down only the chosen state's districts.
- `maxLength` truncates the typed text on both pages (`Utf16Take`) before the
  login page's digit sanitiser runs.

The login page's one-second OTP delay is a separate event, `OtpTimerFires`.
It has an effect only while a send is pending (`isLoading`), which is exactly
when the real timer is waiting, and it may fire after a tab switch.

Some facts about the code:
- The calculator never rejects a zero or negative area. It uses any area the
  browser parsed from a non-empty field as it is.
- Premiums are non-decreasing in the area. Because the gross premium is
  rounded, a larger area can give the same premium.
- The eligibility verdict is a length test on a list of ids. It agrees with
  "every item ticked" on every list the page can produce.
- A premium string that `parseInt` cannot read gives 0.
- The registration page compares JavaScript `.length` values, which count
  UTF-16 code units, so the model measures those fields with `Utf16Length`.

## Model

| member | source | states |
|---|---|---|
| `Calculator.Find` | src/pages/Calculator.tsx:50-51 | `find` returns nothing exactly when no row matches, and otherwise the first matching row |
| `Calculator.Quote` | src/pages/Calculator.tsx:56-66 | sum insured is the per-acre sum times the area, unrounded; the gross premium is within half a rupee of sum × rate% × multiplier; the rounded subsidy equals the rounded net premium; subsidy + net is within 1 of the gross |
| `Calculator.CalculatePremium` | src/pages/Calculator.tsx:47-68 | with any field empty, or the crop or plan missing from its table, the page (and its previous result) is unchanged; otherwise only the result changes, to the quote of the listed crop and plan |
| `Calculator.TablesPositive` | src/pages/Calculator.tsx:18-33 | every crop rate, plan multiplier and per-acre sum insured is positive |
| `Calculator.NamesDistinct` | src/pages/Calculator.tsx:18-33 | no two crops and no two plans share a name, so a lookup by name is unambiguous |
| `Calculator.EnabledSelectionCalculates` | src/pages/Calculator.tsx:48-53 | when every field is filled and the names come from the drop-downs, the result is the quote for exactly those rows |
| `Calculator.UnknownCropKeepsResult` | src/pages/Calculator.tsx:50-53 | for any crop name that no table row has, `find` returns nothing and the page keeps its previous state, with no default rate |
| `Calculator.CropNamesCaseSensitive` | src/pages/Calculator.tsx:50-53 | names are matched exactly: "paddy" is not listed, and calculating with it changes nothing |
| `Calculator.InitialFormIncomplete` | src/pages/Calculator.tsx:36-48 | the page opens with every field empty, so calculating does nothing |
| `Calculator.StatesNonEmpty` | src/pages/Calculator.tsx:10-16 | every state in the list is non-empty, so picking one satisfies the guard's state test |
| `Calculator.SubsidyEqualsNet` | src/pages/Calculator.tsx:59-66 | every result the page shows has subsidy equal to net premium |
| `Calculator.RoundingNotAdditive` | src/pages/Calculator.tsx:63-66 | for Paddy, Basic Protection and 0.001 acres: gross 1, subsidy 1, net 1, so subsidy + net ≠ gross |
| `Calculator.SumInsuredLinear` | src/pages/Calculator.tsx:56 | doubling the area doubles the sum insured |
| `Calculator.QuoteMonotoneInArea` | src/pages/Calculator.tsx:56-58 | for a listed crop and plan, a larger area never lowers the sum insured or the rounded gross premium |
| `Calculator.PaddyBasicExample` | src/pages/Calculator.tsx:19-66 | Paddy, Basic Protection, 2.5 acres: 125000 insured, 2500 gross, 1250 subsidy, 1250 net |
| `Calculator.GroundnutStandardExample` | src/pages/Calculator.tsx:22-66 | Groundnut, Standard Protection, 1 acre: 100000 insured, 6000 gross, 3000 subsidy, 3000 net |
| `Money.Round` | src/pages/Calculator.tsx:63-66 | `Math.round` gives the integer within half a unit below or at the value, i.e. halves round up |
| `Money.RoundHalvesUp` | src/pages/Payment.tsx:92 | 2.5 and 0.5 round up to 3 and 1; -2.5 rounds up to -2 |
| `Sequences.Filter` | src/pages/Eligibility.tsx:64 | `filter` keeps only elements passing the test, each taken from the input |
| `Sequences.FilterMembers` | src/pages/Login.tsx:24 | a character survives `replace(/\D/g, "")` exactly when it occurs in the input and is a digit (generally: passes the test) |
| `Sequences.FilterConcat` | src/pages/Login.tsx:24 | filtering a concatenation is the concatenation of the filtered parts, so order is preserved |
| `Sequences.Take` | src/pages/Login.tsx:24 | `.slice(0, n)` gives a prefix of length `min(n, length)` |
| `Sequences.FilterIdempotent` | src/pages/Payment.tsx:87 | removing `₹` and `,` twice removes nothing more than once (generally for any filter) |
| `Text.ParseInt` | src/pages/Payment.tsx:87 | `parseInt` reads a number only if the input contains a digit (its full behaviour is given by `ParseIntReads` and `ParseIntNaN`) |
| `Text.ParseIntRoundTrip` | src/pages/Payment.tsx:87 | `parseInt` reads back the decimal rendering of every integer, including negatives |
| `Text.ParseIntStopsAtNonDigit` | src/pages/Payment.tsx:87 | `parseInt` reads the digit run and ignores whatever follows it |
| `Text.ParseIntReads` | src/pages/Payment.tsx:87 | after any leading whitespace and at most one sign, a digit run is read as its value (negated after `-`), and whatever follows is ignored |
| `Text.ParseIntNaN` | src/pages/Payment.tsx:87 | after the leading whitespace and at most one sign, a string that ends or continues with a non-digit gives NaN |
| `Text.Utf16Length` | src/pages/Register.tsx:45 | `.length` counts UTF-16 code units: at least the number of characters and at most twice it |
| `Text.Utf16LengthOfBmp` | src/pages/Login.tsx:34 | for characters in the Basic Multilingual Plane, `.length` is the number of characters |
| `Text.Utf16Take` | src/pages/Register.tsx:97 | `maxLength` keeps a prefix of the typed text that fits the limit and would overflow it with one more character |
| `Text.Utf16TakeFits` | src/pages/Register.tsx:97 | typed text within the limit is kept whole |
| `Text.Utf16TakeOfBmp` | src/pages/Login.tsx:243 | for text of Basic Multilingual Plane characters, `maxLength` keeps exactly the first `maxLength` characters (all of them when shorter) |
| `Text.DigitsRoundTrip` | src/pages/Payment.tsx:87 | the decimal digit value of a number's rendering is the number |
| `Payment.PlanOf` | src/pages/Payment.tsx:79-83 | a plan passed in navigation state is used as it is; without one the premium string is "₹1,200" |
| `Payment.StripCurrency` | src/pages/Payment.tsx:87 | a character is in the result exactly when it is in the input and is neither `₹` nor `,` |
| `Payment.StripCurrencyConcat` | src/pages/Payment.tsx:87 | stripping distributes over concatenation, so the remaining characters keep their order |
| `Payment.ParsePremiumUnreadable` | src/pages/Payment.tsx:86-88 | every string that `parseInt` rejects once the marks are stripped costs 0 |
| `Payment.ParsePremiumLeadingLetter` | src/pages/Payment.tsx:86-88 | a premium string starting with a letter, such as "Rs 1,200", costs 0 |
| `Payment.ParsePremium` | src/pages/Payment.tsx:86-88 | a premium string without a digit parses to 0 (the `NaN` fallback) |
| `Payment.ParsePremiumOfAmount` | src/pages/Payment.tsx:85-88 | a string of digits, `₹` and `,` with at least one digit parses to the value of its digits, wherever the marks stand |
| `Payment.StripGrouped` | src/pages/Payment.tsx:87 | "₹" + d1 + "," + d2 loses exactly its two marks |
| `Payment.ParsePremiumGrouped` | src/pages/Payment.tsx:85-88 | "₹" + d1 + "," + d2 parses to the number the digits d1 d2 spell |
| `Payment.ParsePremiumExample` | src/pages/Payment.tsx:85-88 | "₹1,200" parses to 1200 |
| `Payment.ComputeOrder` | src/pages/Payment.tsx:90-93 | GST is within half a rupee of 18% of the premium, and the total is premium + GST |
| `Payment.GstBounds` | src/pages/Payment.tsx:91-93 | for a non-negative premium, 0 ≤ GST ≤ premium and premium ≤ total ≤ 2 × premium |
| `Payment.OrderMonotone` | src/pages/Payment.tsx:91-93 | a larger premium never gives smaller GST or a smaller total |
| `Payment.ZeroOrder` | src/pages/Payment.tsx:90-93 | a zero premium gives zero GST and zero total |
| `Payment.DefaultPlanOrder` | src/pages/Payment.tsx:79-93 | without a plan in navigation state, the order is premium 1200, GST 216, total 1416 |
| `Payment.CheckPayment` | src/pages/Payment.tsx:99-127 | no method selected is reported first, whatever else is filled; UPI with an empty ID and net banking with no bank are rejected; processing starts exactly when a method is chosen and its field, if any, is filled |
| `Payment.PayEnabled` | src/pages/Payment.tsx:316 | definition: the pay button is enabled unless a payment is processing; used by `InitialPaymentAsksForMethod` and `StartedPaymentDisablesPay` |
| `Payment.HandlePayment` | src/pages/Payment.tsx:99-127 | a payment that passes the checks sets processing and changes nothing else; one that fails leaves the page unchanged |
| `Payment.UpiIdContentIgnored` | src/pages/Payment.tsx:109 | any two non-empty UPI IDs are treated identically |
| `Payment.NoMethodRejectedFirst` | src/pages/Payment.tsx:100-107 | without a method, no UPI ID or bank lets processing start |
| `Payment.InitialPaymentAsksForMethod` | src/pages/Payment.tsx:74-107 | the page opens with the pay button enabled and no method chosen, and a first click only asks for a method |
| `Payment.ListedBankProceeds` | src/pages/Payment.tsx:59-68 | every bank tile names a bank, so net banking with a listed bank passes the checks |
| `Payment.StartedPaymentDisablesPay` | src/pages/Payment.tsx:127 | a payment that starts disables the pay button (line 316) |
| `Login.Sanitize` | src/pages/Login.tsx:23-31 | the sanitised value is the first `bound` digits of the input: all digits, a prefix of the input's digits, exactly `min(bound, number of digits)` long |
| `Login.SanitizePassThrough` | src/pages/Login.tsx:24 | a string of at most 10 (or 6) digits passes through unchanged |
| `Login.SanitizeIdempotent` | src/pages/Login.tsx:24 | sanitising twice gives the same value as once |
| `Login.SanitizeIgnoresNonDigit` | src/pages/Login.tsx:24 | a non-digit inserted anywhere leaves the sanitised value unchanged |
| `Login.SanitizersBounded` | src/pages/Login.tsx:23-31 | the mobile value is ≤ 10 digits, the OTP value ≤ 6 digits, and the OTP sanitiser's output is a prefix of the mobile sanitiser's |
| `Login.SendOtp` | src/pages/Login.tsx:33-51 | with a mobile of exactly 10 characters only `isLoading` changes; otherwise nothing changes; `otpSent` is never set directly |
| `Login.SendOtpNotice` | src/pages/Login.tsx:44-50 | the error toast appears only when nothing changes; without it sending has started |
| `Login.TabChange` | src/pages/Login.tsx:89-93 | switching tabs sets the mode, clears password, OTP and `otpSent`, and keeps the mobile number |
| `Login.Submit` | src/pages/Login.tsx:53-87 | login succeeds exactly when the mobile has 10 characters, the password is non-empty in password mode and the OTP has 6 in OTP mode; the checks run in that order |
| `Login.SubmitEnabled` | src/pages/Login.tsx:259-263 | definition: the submit button's enabling condition, which unlike the handler requires `otpSent` in OTP mode; used by `SubmitEnabledAccepted` and `SubmitIgnoresOtpSent` |
| `Login.Step` | src/pages/Login.tsx:23-243 | definition: one user action or timer callback, with unrendered controls (lines 166, 189, 230) and the disabled "Get OTP" button ignoring input, and the OTP field's `maxLength` (line 243) cutting typed text before sanitising; used by `PastedOtpCutFirst`, `StepPreservesWellFormed`, `HiddenControlsIgnored` and `NoSendNoOtp` |
| `Login.IdleTimerIgnored` | src/pages/Login.tsx:33-43 | with no send pending, the timer callback changes nothing |
| `Login.NoSendNoOtp` | src/pages/Login.tsx:33-43 | without a click on "Get OTP", no sequence of events marks an OTP as sent or starts loading |
| `Login.StepPreservesWellFormed` | src/pages/Login.tsx:23-31 | after any event the mobile is ≤ 10 digits and the OTP ≤ 6 digits |
| `Login.RunPreservesWellFormed` | src/pages/Login.tsx:23-93 | no sequence of events breaks that invariant |
| `Login.InitialLoginWellFormed` | src/pages/Login.tsx:14-21 | the empty page is well formed, and its submit button is disabled |
| `Login.WellFormedLengthsAreJsLengths` | src/pages/Login.tsx:34 | on a well-formed page, `.length` of the mobile and the OTP is their character count |
| `Login.HiddenControlsIgnored` | src/pages/Login.tsx:166-230 | the Get OTP button and OTP field do nothing off the OTP tab; the password field does nothing on it; the OTP field does nothing before an OTP is sent |
| `Login.SubmitEnabledAccepted` | src/pages/Login.tsx:259-263 | an enabled submit button always leads to a successful login |
| `Login.SubmitIgnoresOtpSent` | src/pages/Login.tsx:74-81 | the handler alone accepts a 6-digit OTP with `otpSent` false, while the button is disabled; that state is never reached (`ReachableOtpLoginWasSent`) |
| `Login.PastedOtpCutFirst` | src/pages/Login.tsx:28-31 | pasting "ab123456" into the OTP field keeps "ab1234" (`maxLength`, line 243), stores "1234", and the login is refused |
| `Login.StepKeepsOtpOnlyAfterSend` | src/pages/Login.tsx:89-93 | every event keeps "a non-empty OTP implies an OTP was sent": the field is hidden until then (line 230) and a tab switch clears both |
| `Login.RunKeepsOtpOnlyAfterSend` | src/pages/Login.tsx:89-93 | no sequence of events breaks that invariant |
| `Login.ReachableOtpLoginWasSent` | src/pages/Login.tsx:74-81 | on every state reachable from the empty page, an accepted OTP login had its OTP sent, so the handler's missing `otpSent` check is harmless |
| `Login.SendOtpEnabledProceeds` | src/pages/Login.tsx:169-170 | an enabled "Get OTP" button always starts sending, with no error toast |
| `Login.TabChangeNeedsNewOtp` | src/pages/Login.tsx:89-93 | right after a tab switch, no login succeeds in either mode |
| `Eligibility.HandleCheck` | src/pages/Eligibility.tsx:60-66 | ticking appends the id at the end and keeps the rest; unticking leaves no occurrence of the id |
| `Eligibility.Toggle` | src/pages/Eligibility.tsx:138-142 | a checkbox click puts its id in the list exactly when it was not there, and leaves every other id's presence unchanged |
| `Eligibility.AllChecked` | src/pages/Eligibility.tsx:68 | definition: the list has as many entries as the checklist; used by `AllCheckedIffEveryItem` and `LengthVerdictNeedsInvariant` |
| `Eligibility.PlansEnabled` | src/pages/Eligibility.tsx:175 | definition: the plans button is enabled when `allChecked` holds; used by `PlansEnabledIffEveryItem` |
| `Eligibility.UncheckKeepsOthers` | src/pages/Eligibility.tsx:63-64 | unticking keeps every other id with its multiplicity |
| `Eligibility.UncheckPreservesOrder` | src/pages/Eligibility.tsx:63-64 | unticking distributes over concatenation, so the order of the other entries is kept |
| `Eligibility.ToggleKeepsValid` | src/pages/Eligibility.tsx:140-141 | a checkbox click keeps the list duplicate-free and made of checklist ids |
| `Eligibility.ClicksKeepValid` | src/pages/Eligibility.tsx:136-142 | any sequence of checkbox clicks keeps the list valid |
| `Eligibility.AllCheckedIffEveryItem` | src/pages/Eligibility.tsx:49-68 | on a valid list, length 5 holds exactly when each of the five ids is present |
| `Eligibility.PlansEnabledIffEveryItem` | src/pages/Eligibility.tsx:175 | after any clicks from the empty list, the plans button is enabled exactly when all five items are ticked |
| `Eligibility.LengthVerdictNeedsInvariant` | src/pages/Eligibility.tsx:68 | five calls ticking "land" pass the length test although "aadhaar" is missing |
| `Register.SendOtp` | src/pages/Register.tsx:44-52 | `otpSent` becomes true when the mobile's `.length`, in UTF-16 code units, is exactly 10; nothing else ever changes |
| `Register.SelectState` | src/pages/Register.tsx:160 | choosing a state clears the district and keeps every other field |
| `Register.DistrictChoices` | src/pages/Register.tsx:186-191 | the choices are `districts[state]`; with no state, or an unknown one, there are none |
| `Register.GetOtpEnabled` | src/pages/Register.tsx:107 | definition: "Get OTP" is enabled when the mobile's `.length` is 10 and no OTP was sent; used by `GetOtpEnabledSends`, `AtMostOneSend` and `AstralMobileSends` |
| `Register.CreateEnabled` | src/pages/Register.tsx:240 | definition: "Create Account" is enabled when the terms are accepted and an OTP was sent; used by `SubmitNeedsTermsAndOtp` |
| `Register.RequiredFilled` | src/pages/Register.tsx:80-139 | definition: the `required` name, mobile and password fields are non-empty, and so is the OTP field once it is shown; used by `SubmitNeedsTermsAndOtp` and `MobileNotDigitChecked` |
| `Register.Step` | src/pages/Register.tsx:71-244 | definition: one user action, with `maxLength` truncation, the hidden OTP field, the state and district drop-downs' options and the disabled "Get OTP" button; used by `AtMostOneSend`, `StepKeepsDistrictConsistent` and `StepKeepsLengthLimits` |
| `Register.HandleSubmit` | src/pages/Register.tsx:54-60 | the submit handler reports success for every form |
| `Register.OtpSentIsStable` | src/pages/Register.tsx:44-52 | no event clears `otpSent` once it is set |
| `Register.GetOtpEnabledSends` | src/pages/Register.tsx:103-110 | a click on the enabled "Get OTP" button sends and disables the button |
| `Register.AtMostOneSend` | src/pages/Register.tsx:107 | any sequence of events sends at most one OTP, and none once one has been sent |
| `Register.StepKeepsDistrictConsistent` | src/pages/Register.tsx:158-193 | a chosen district always belongs to the chosen state |
| `Register.StepKeepsLengthLimits` | src/pages/Register.tsx:97 | the mobile's `.length` stays ≤ 10 and the OTP's ≤ 6 |
| `Register.TypedMobileWithinLimitKept` | src/pages/Register.tsx:97-99 | a mobile number typed within the limit is kept whole |
| `Register.AstralMobileSends` | src/pages/Register.tsx:45-107 | five characters outside the Basic Multilingual Plane, such as emoji, have `.length` 10: the button is enabled and an OTP is sent |
| `Register.OtpFieldHiddenUntilSent` | src/pages/Register.tsx:114 | before an OTP is sent the OTP field is not rendered, so typing there changes nothing |
| `Register.EveryStateHasDistricts` | src/pages/Register.tsx:13-27 | every listed state is non-empty and has districts to choose from |
| `Register.NoStateNoDistrict` | src/pages/Register.tsx:177-191 | without a state the district selector is disabled, offers nothing, and ignores picks |
| `Register.SubmitNeedsTermsAndOtp` | src/pages/Register.tsx:237-241 | an account is only submitted with the terms accepted and an OTP sent |
| `Register.MobileNotDigitChecked` | src/pages/Register.tsx:92-101 | ten letters are enough to send an OTP, and a one-letter OTP is accepted |

## Left out

- Rendering, CSS, icons and the toast UI. Toasts appear only as the `Notice`/`PaymentCheck` outcome a handler chooses.
- Routing and navigation (`navigate`, `Link`, `src/App.tsx`). The payment page's navigation state is a parameter (`PlanOf`).
- The timers. Payment completion after 2 seconds and the return to the dashboard are not modelled. The login OTP delay is the separate `OtpTimerFires` event, which has an effect only while a send is pending and may arrive after a tab switch.
- `src/contexts/AuthContext.tsx`, `src/hooks/use-scroll-animation.tsx` and the static pages: session storage, DOM observers and fixed content.
- `parseFloat` of the area. The area arrives already parsed, or as `None` for an empty field.
- `toLocaleString` currency formatting.
- IEEE-754 doubles. Amounts are exact reals, so artefacts of `× 0.18`, `× 1.2` and `× 1.5` are not reproduced.
- Text.ParseInt: unbounded integers, so precision loss above 2^53 and `Infinity` for very long digit runs are not modelled.
- The payment page's selection setters (`setSelectedMethod`, `setUpiId`, `setSelectedBank`). They are plain assignments, and `PaymentForm` holds their results directly.
- The show-password toggles: presentation only.
- Browser constraint validation appears only for the registration form's `required` fields (`RequiredFilled`). On the login page it is implied by the button's enabling condition.
- Register.Step: a browser may cut text that exceeds `maxLength` at a grapheme-cluster boundary. The model keeps the longest prefix that fits without splitting a character. The browser cuts the inserted text, so an insertion in the middle of a full field is refused rather than cut from the end. The model treats every edit as typing the whole new text, and this also applies to `Login.Step`.

=== FILE: calculator.dfy ===
/**
 * The premium estimator page: static crop-rate and plan tables and
 * `calculatePremium`, which turns the selected crop, plan and land area into
 * a sum insured, a gross premium, the 50% government subsidy and the net
 * premium the farmer pays.
 */
module Calculator {
  import opened Maybe
  import opened Money

  /** A crop and its premium rate, in percent of the sum insured. */
  datatype Crop = Crop(name: string, rate: real)

  /** A plan tier: a premium multiplier and the sum insured per acre. */
  datatype Plan = Plan(name: string, multiplier: real, sumInsured: real)

  /** The figures shown after a calculation; `sumInsured` is kept unrounded. */
  datatype PremiumResult = PremiumResult(premium: int, sumInsured: real, subsidy: int, netPremium: int)

  /**
   * The page's state: the three drop-downs, the area field and the last result.
   * The area field holds `None` while its text is empty; otherwise the number
   * the browser parsed from it.
   */
  datatype CalcForm = CalcForm(state: string, crop: string, area: Option<real>, plan: string,
                               result: Option<PremiumResult>)

  const States: seq<string> := ["Karnataka", "Maharashtra", "Andhra Pradesh", "Tamil Nadu", "Telangana"]

  const Crops: seq<Crop> := [
    Crop("Paddy", 2.0), Crop("Wheat", 1.5), Crop("Maize", 2.0), Crop("Groundnut", 5.0),
    Crop("Cotton", 5.0), Crop("Jowar", 2.0), Crop("Ragi", 2.0), Crop("Sugarcane", 5.0)
  ]

  const Plans: seq<Plan> := [
    Plan("Basic Protection", 1.0, 50000.0),
    Plan("Standard Protection", 1.2, 100000.0),
    Plan("Comprehensive Protection", 1.5, 200000.0)
  ]

  /** The fraction of the gross premium the government pays. */
  const SubsidyShare: real := 0.5

  const InitialForm: CalcForm := CalcForm("", "", None, "", None)

  /** `Array.prototype.find`: the first element that matches, or nothing. */
  function Find<T>(table: seq<T>, matches: T -> bool): (r: Option<T>)
    ensures r.None? <==> forall i :: 0 <= i < |table| ==> !matches(table[i])
    ensures r.Some? ==> exists i :: 0 <= i < |table| && table[i] == r.value && matches(r.value)
                                    && forall j :: 0 <= j < i ==> !matches(table[j])
  {
    if table == [] then None
    else if matches(table[0]) then Some(table[0])
    else
      var r := Find(table[1..], matches);
      assert forall j :: 1 <= j < |table| ==> table[j] == table[1..][j - 1];
      assert r.Some? ==> exists i :: 1 <= i < |table| && table[i] == r.value && matches(r.value)
                                     && forall j :: 0 <= j < i ==> !matches(table[j]);
      r
  }

  function FindCrop(name: string): Option<Crop> {
    Find(Crops, (c: Crop) => c.name == name)
  }

  function FindPlan(name: string): Option<Plan> {
    Find(Plans, (p: Plan) => p.name == name)
  }

  /** A crop of that name is in the rate table. */
  predicate CropListed(name: string) {
    exists i :: 0 <= i < |Crops| && Crops[i].name == name
  }

  /** A plan of that name is in the plan table. */
  predicate PlanListed(name: string) {
    exists i :: 0 <= i < |Plans| && Plans[i].name == name
  }

  /**
   * Every field the calculation needs has been filled in: both the guard at
   * the top of `calculatePremium` and the condition that enables the
   * "Calculate Premium" button.
   */
  predicate Complete(f: CalcForm) {
    f.state != "" && f.crop != "" && f.area.Some? && f.plan != ""
  }

  /** The gross premium before rounding: sum insured times rate percent times multiplier. */
  function GrossPremium(c: Crop, p: Plan, area: real): real {
    p.sumInsured * area * c.rate / 100.0 * p.multiplier
  }

  /**
   * The figures for one crop, plan and area. Subsidy and net premium are
   * derived from the unrounded gross premium, and each figure is rounded on
   * its own.
   */
  function Quote(c: Crop, p: Plan, area: real): (r: PremiumResult)
    ensures r.sumInsured == p.sumInsured * area
    ensures r.premium as real - 0.5 <= GrossPremium(c, p, area) < r.premium as real + 0.5
    ensures r.netPremium as real - 0.5 <= GrossPremium(c, p, area) / 2.0 < r.netPremium as real + 0.5
    ensures r.subsidy == r.netPremium
    ensures r.premium - 1 <= r.subsidy + r.netPremium <= r.premium + 1
  {
    var sumInsured := p.sumInsured * area;
    var basePremium := sumInsured * c.rate / 100.0;
    var premium := basePremium * p.multiplier;
    var subsidy := premium * SubsidyShare;
    var netPremium := premium - subsidy;
    PremiumResult(Round(premium), sumInsured, Round(subsidy), Round(netPremium))
  }

  /**
   * `calculatePremium`: with every field filled in and both names found in
   * their tables, store a fresh result; otherwise leave the page as it was.
   */
  function CalculatePremium(f: CalcForm): (r: CalcForm)
    ensures !(Complete(f) && CropListed(f.crop) && PlanListed(f.plan)) ==> r == f
    ensures Complete(f) && CropListed(f.crop) && PlanListed(f.plan) ==>
              exists i, j :: 0 <= i < |Crops| && 0 <= j < |Plans|
                             && Crops[i].name == f.crop && Plans[j].name == f.plan
                             && r == f.(result := Some(Quote(Crops[i], Plans[j], f.area.value)))
  {
    if f.state == "" || f.crop == "" || f.area.None? || f.plan == "" then f
    else
      var crop := FindCrop(f.crop);
      var plan := FindPlan(f.plan);
      if crop.None? || plan.None? then f
      else
        var areaNum := f.area.value;
        f.(result := Some(Quote(crop.value, plan.value, areaNum)))
  }

  // ---------------------------------------------------------------------------
  // Properties

  /** Every table rate, multiplier and per-acre sum insured is positive. */
  lemma TablesPositive()
    ensures forall i :: 0 <= i < |Crops| ==> Crops[i].rate > 0.0
    ensures forall j :: 0 <= j < |Plans| ==> Plans[j].multiplier > 0.0 && Plans[j].sumInsured > 0.0
  {
  }

  /** No two rows of either table share a name (their first letters already differ). */
  lemma NamesDistinct()
    ensures forall i, j :: 0 <= i < |Crops| && 0 <= j < |Crops| && Crops[i].name == Crops[j].name ==> i == j
    ensures forall i, j :: 0 <= i < |Plans| && 0 <= j < |Plans| && Plans[i].name == Plans[j].name ==> i == j
  {
    assert forall i :: 0 <= i < |Crops| ==> Crops[i].name[0] == "PWMGCJRS"[i];
    assert forall i :: 0 <= i < |Plans| ==> Plans[i].name[0] == "BSC"[i];
  }

  /** An enabled button with names picked from the drop-downs always yields a result. */
  lemma EnabledSelectionCalculates(f: CalcForm, i: nat, j: nat)
    requires Complete(f)
    requires i < |Crops| && f.crop == Crops[i].name
    requires j < |Plans| && f.plan == Plans[j].name
    ensures CalculatePremium(f).result == Some(Quote(Crops[i], Plans[j], f.area.value))
  {
    NamesDistinct();
    assert CropListed(f.crop) && PlanListed(f.plan);
  }

  /** A crop missing from the rate table never gets a default rate: the page keeps its old result. */
  lemma UnknownCropKeepsResult(f: CalcForm)
    requires forall i :: 0 <= i < |Crops| ==> Crops[i].name != f.crop
    ensures CalculatePremium(f) == f
    ensures FindCrop(f.crop).None?
  {
  }

  /** Names are matched exactly: "paddy" is not a listed crop, and the page ignores it. */
  lemma CropNamesCaseSensitive(f: CalcForm)
    requires f.crop == "paddy"
    ensures !CropListed(f.crop)
    ensures CalculatePremium(f) == f
  {
    assert forall i :: 0 <= i < |Crops| ==> Crops[i].name[0] == "PWMGCJRS"[i];
  }

  /** The page opens with every field empty, so the first calculation does nothing. */
  lemma InitialFormIncomplete()
    ensures !Complete(InitialForm)
    ensures CalculatePremium(InitialForm) == InitialForm
  {
  }

  /** Picking any state from the list fills the state field the guard tests. */
  lemma StatesNonEmpty(i: nat)
    requires i < |States|
    ensures States[i] != ""
  {
  }

  /** Half of the gross premium goes to the subsidy and half to the farmer, so both round alike. */
  lemma SubsidyEqualsNet(f: CalcForm)
    requires f.result.Some? ==> f.result.value.subsidy == f.result.value.netPremium
    ensures var r := CalculatePremium(f).result;
            r.Some? ==> r.value.subsidy == r.value.netPremium
  {
  }

  /** Rounding each figure on its own can make subsidy plus net premium exceed the gross premium. */
  lemma RoundingNotAdditive()
    ensures var r := Quote(Crops[0], Plans[0], 0.001);
            r.premium == 1 && r.subsidy == 1 && r.netPremium == 1
            && r.subsidy + r.netPremium != r.premium
  {
    var r := Quote(Crops[0], Plans[0], 0.001);
    assert GrossPremium(Crops[0], Plans[0], 0.001) == 1.0;
    RoundUnique(1.0, 1);
    RoundUnique(0.5, 1);
  }

  /** Doubling the area doubles the sum insured. */
  lemma SumInsuredLinear(c: Crop, p: Plan, area: real)
    ensures Quote(c, p, 2.0 * area).sumInsured == 2.0 * Quote(c, p, area).sumInsured
  {
  }

  lemma MulMonotone(x: real, y: real, k: real)
    requires x <= y && k > 0.0
    ensures x * k <= y * k
  {
  }

  /** For a listed crop and plan, more land never lowers the sum insured or the gross premium. */
  lemma QuoteMonotoneInArea(i: nat, j: nat, a: real, b: real)
    requires i < |Crops| && j < |Plans|
    requires a <= b
    ensures Quote(Crops[i], Plans[j], a).sumInsured <= Quote(Crops[i], Plans[j], b).sumInsured
    ensures Quote(Crops[i], Plans[j], a).premium <= Quote(Crops[i], Plans[j], b).premium
  {
    var c, p := Crops[i], Plans[j];
    TablesPositive();
    MulMonotone(a, b, p.sumInsured);
    assert p.sumInsured * a <= p.sumInsured * b;
    MulMonotone(p.sumInsured * a, p.sumInsured * b, c.rate / 100.0 * p.multiplier);
    assert GrossPremium(c, p, a) == p.sumInsured * a * (c.rate / 100.0 * p.multiplier);
    assert GrossPremium(c, p, b) == p.sumInsured * b * (c.rate / 100.0 * p.multiplier);
    RoundMonotone(GrossPremium(c, p, a), GrossPremium(c, p, b));
  }

  /** Paddy (2%) on 2.5 acres under Basic Protection: 125000 insured, 2500 gross, 1250 subsidy, 1250 net. */
  lemma PaddyBasicExample(f: CalcForm)
    requires f == CalcForm("Karnataka", "Paddy", Some(2.5), "Basic Protection", None)
    ensures CalculatePremium(f).result == Some(PremiumResult(2500, 125000.0, 1250, 1250))
  {
    EnabledSelectionCalculates(f, 0, 0);
    assert GrossPremium(Crops[0], Plans[0], 2.5) == 2500.0;
    RoundOfInteger(2500);
    RoundOfInteger(1250);
  }

  /** Groundnut (5%) on 1 acre under Standard Protection: 100000 insured, 6000 gross, 3000 subsidy, 3000 net. */
  lemma GroundnutStandardExample()
    ensures Quote(Crops[3], Plans[1], 1.0) == PremiumResult(6000, 100000.0, 3000, 3000)
  {
    assert GrossPremium(Crops[3], Plans[1], 1.0) == 6000.0;
    RoundOfInteger(6000);
    RoundOfInteger(3000);
  }
}

=== FILE: eligibility.dfy ===
/**
 * The eligibility checklist: a list of the ids of the ticked items, updated
 * by appending and by filtering, and the verdict "all items ticked", which
 * the page computes from the list's length alone.
 */
module Eligibility {
  import opened Sequences

  /** The ids of the five self-attestation items: land documents, Aadhaar, bank account, crop, sowing season. */
  const ChecklistIds: seq<string> := ["land", "aadhaar", "bank", "crop", "season"]

  /** No id occurs twice. */
  predicate NoDuplicates(items: seq<string>) {
    forall i, j :: 0 <= i < j < |items| ==> items[i] != items[j]
  }

  /** The list can arise from clicks on the page: only checklist ids, each at most once. */
  predicate Valid(items: seq<string>) {
    (forall i :: 0 <= i < |items| ==> items[i] in ChecklistIds) && NoDuplicates(items)
  }

  /** `item !== id`. */
  function IsNot(id: string): string -> bool {
    item => item != id
  }

  /** `handleCheck`: append the id when ticked, otherwise drop every occurrence of it. */
  function HandleCheck(items: seq<string>, id: string, checked: bool): (r: seq<string>)
    ensures checked ==> |r| == |items| + 1 && r[..|items|] == items && r[|items|] == id
    ensures !checked ==> id !in r && |r| <= |items|
  {
    if checked then items + [id] else Filter(items, IsNot(id))
  }

  /** The checkbox of `id` passes `true` exactly when the id is not yet in the list. */
  function Toggle(items: seq<string>, id: string): (r: seq<string>)
    ensures id in r <==> id !in items
    ensures forall x :: x != id ==> (x in r <==> x in items)
  {
    FilterMembers(items, IsNot(id));
    HandleCheck(items, id, id !in items)
  }

  /** `allChecked`: as many entries as checklist items. */
  predicate AllChecked(items: seq<string>) {
    |items| == |ChecklistIds|
  }

  /** The "View Insurance Plans" button is enabled. */
  predicate PlansEnabled(items: seq<string>) {
    AllChecked(items)
  }

  /** The list after ticking and unticking checklist items, given by their positions. */
  function Clicks(items: seq<string>, clicked: seq<nat>): seq<string>
    decreases |clicked|
  {
    if clicked == [] then items
    else if clicked[0] < |ChecklistIds| then Clicks(Toggle(items, ChecklistIds[clicked[0]]), clicked[1..])
    else Clicks(items, clicked[1..])
  }

  // ---------------------------------------------------------------------------
  // Properties

  /** Unticking keeps every other entry, in its original order and with its multiplicity. */
  lemma {:induction false} UncheckKeepsOthers(items: seq<string>, id: string)
    ensures forall x :: x != id ==> multiset(HandleCheck(items, id, false))[x] == multiset(items)[x]
  {
    if items != [] {
      UncheckKeepsOthers(items[1..], id);
      assert items == [items[0]] + items[1..];
    }
  }

  /** Unticking distributes over the parts of a list, so relative order is preserved. */
  lemma UncheckPreservesOrder(a: seq<string>, b: seq<string>, id: string)
    ensures HandleCheck(a + b, id, false) == HandleCheck(a, id, false) + HandleCheck(b, id, false)
  {
    FilterConcat(a, b, IsNot(id));
  }

  /** A click on a checklist item keeps the list valid. */
  lemma ToggleKeepsValid(items: seq<string>, id: string)
    requires Valid(items) && id in ChecklistIds
    ensures Valid(Toggle(items, id))
  {
    var r := Toggle(items, id);
    if id in items {
      FilterMembers(items, IsNot(id));
      UncheckKeepsOthers(items, id);
      forall i, j | 0 <= i < j < |r|
        ensures r[i] != r[j]
      {
        if r[i] == r[j] {
          assert multiset(r)[r[i]] >= 2 by {
            assert r == r[..i] + [r[i]] + r[i + 1..j] + [r[j]] + r[j + 1..];
          }
          DistinctCount(items, r[i]);
        }
      }
    }
  }

  /** In a list without duplicates every entry occurs once. */
  lemma {:induction false} DistinctCount(items: seq<string>, x: string)
    requires NoDuplicates(items)
    ensures multiset(items)[x] <= 1
  {
    if items != [] {
      DistinctCount(items[1..], x);
      assert items == [items[0]] + items[1..];
      if items[0] == x {
        assert x !in items[1..];
      }
    }
  }

  /** Clicks on checklist items never make a valid list invalid; the page starts from the empty list. */
  lemma {:induction false} ClicksKeepValid(items: seq<string>, clicked: seq<nat>)
    requires Valid(items)
    ensures Valid(Clicks(items, clicked))
    decreases |clicked|
  {
    if clicked != [] {
      if clicked[0] < |ChecklistIds| {
        ToggleKeepsValid(items, ChecklistIds[clicked[0]]);
        ClicksKeepValid(Toggle(items, ChecklistIds[clicked[0]]), clicked[1..]);
      } else {
        ClicksKeepValid(items, clicked[1..]);
      }
    }
  }

  /** The elements of a list as a set. */
  function Elements(items: seq<string>): set<string> {
    set x | x in items
  }

  /** A list without duplicates has as many distinct elements as entries. */
  lemma {:induction false} DistinctElements(items: seq<string>)
    requires NoDuplicates(items)
    ensures |Elements(items)| == |items|
  {
    if items != [] {
      DistinctElements(items[1..]);
      assert Elements(items) == {items[0]} + Elements(items[1..]);
      assert items[0] !in Elements(items[1..]);
    }
  }

  /** A subset as large as its superset is the superset. */
  lemma SubsetOfSameSize(a: set<string>, b: set<string>)
    requires a <= b && |a| == |b|
    ensures a == b
  {
    assert |b - a| == |b| - |a|;
  }

  /**
   * On every list the page can produce, the length-based verdict means the
   * same as "each of the five items is ticked".
   */
  lemma AllCheckedIffEveryItem(items: seq<string>)
    requires Valid(items)
    ensures AllChecked(items) <==> forall id :: id in ChecklistIds ==> id in items
  {
    DistinctElements(items);
    DistinctElements(ChecklistIds);
    assert Elements(items) <= Elements(ChecklistIds);
    if AllChecked(items) {
      SubsetOfSameSize(Elements(items), Elements(ChecklistIds));
      forall id | id in ChecklistIds
        ensures id in items
      {
        assert id in Elements(ChecklistIds);
      }
    }
    if forall id :: id in ChecklistIds ==> id in items {
      assert Elements(items) == Elements(ChecklistIds);
    }
  }

  /** From the empty list, the plans button is enabled exactly when all five items are ticked, whatever was clicked. */
  lemma PlansEnabledIffEveryItem(clicked: seq<nat>)
    ensures var items := Clicks([], clicked);
            PlansEnabled(items) <==> forall id :: id in ChecklistIds ==> id in items
  {
    ClicksKeepValid([], clicked);
    AllCheckedIffEveryItem(Clicks([], clicked));
  }

  /** The verdict depends on the invariant: a list of five copies of one id passes the length test. */
  lemma LengthVerdictNeedsInvariant()
    ensures var items := HandleCheck(HandleCheck(HandleCheck(HandleCheck(HandleCheck(
              [], "land", true), "land", true), "land", true), "land", true), "land", true);
            AllChecked(items) && "aadhaar" !in items
  {
  }
}

=== FILE: login.dfy ===
/**
 * The login page: the digit-only input sanitisers for the mobile number and
 * the OTP, the send-OTP handler, the submit handler with its validation
 * order, the submit button's enabling condition and the tab switch.
 *
 * The one-second delay before an OTP counts as sent is modelled as a
 * separate event, `OtpTimerFires`. A timer is pending exactly while
 * `isLoading` holds: only `handleSendOTP` sets it, only the timer clears it,
 * and the "Get OTP" button is disabled meanwhile. The timer may fire after a
 * tab switch.
 */
module Login {
  import opened Sequences
  import opened Text

  datatype LoginMethod = PasswordLogin | OtpLogin

  datatype LoginForm = LoginForm(loginMethod: LoginMethod, mobile: string, password: string, otp: string,
                                 otpSent: bool, isLoading: bool)

  /** The toast a handler shows, if any. */
  datatype Notice = NoNotice | InvalidMobile | PasswordRequired | InvalidOtp | LoginSucceeded

  /** What a user can do on the page. */
  datatype LoginEvent =
    | TypeMobile(raw: string)
    | TypePassword(raw: string)
    | TypeOtp(raw: string)
    | ClickSendOtp
    | OtpTimerFires
    | SwitchTab(target: LoginMethod)

  const MobileLength: nat := 10
  const OtpLength: nat := 6

  const InitialLogin: LoginForm := LoginForm(PasswordLogin, "", "", "", false, false)

  // ---------------------------------------------------------------------------
  // Input sanitisers

  /** `value.replace(/\D/g, "").slice(0, bound)`: the first `bound` digits of the input. */
  function Sanitize(raw: string, bound: nat): (r: string)
    ensures AllDigits(r)
    ensures |r| <= bound
    ensures r <= KeepDigits(raw)
    ensures |r| == if |KeepDigits(raw)| <= bound then |KeepDigits(raw)| else bound
    ensures |KeepDigits(raw)| <= bound ==> r == KeepDigits(raw)
  {
    Take(KeepDigits(raw), bound)
  }

  /** `handleMobileChange`. */
  function SanitizeMobile(raw: string): string {
    Sanitize(raw, MobileLength)
  }

  /** `handleOtpChange`. */
  function SanitizeOtp(raw: string): string {
    Sanitize(raw, OtpLength)
  }

  /** A string of at most `bound` digits passes through a sanitiser unchanged. */
  lemma SanitizePassThrough(s: string, bound: nat)
    requires AllDigits(s) && |s| <= bound
    ensures Sanitize(s, bound) == s
  {
    FilterKeepsAll(s, IsDigit);
  }

  /** Sanitising an already sanitised value changes nothing. */
  lemma SanitizeIdempotent(raw: string, bound: nat)
    ensures Sanitize(Sanitize(raw, bound), bound) == Sanitize(raw, bound)
  {
    SanitizePassThrough(Sanitize(raw, bound), bound);
  }

  /** A non-digit typed anywhere is dropped without disturbing the digits around it. */
  lemma SanitizeIgnoresNonDigit(a: string, c: char, b: string, bound: nat)
    requires !IsDigit(c)
    ensures Sanitize(a + [c] + b, bound) == Sanitize(a + b, bound)
  {
    FilterConcat(a + [c], b, IsDigit);
    FilterConcat(a, [c], IsDigit);
    FilterConcat(a, b, IsDigit);
    assert Filter([c], IsDigit) == [];
  }

  /** Both sanitisers keep the digits in their original order and stop at their length. */
  lemma SanitizersBounded(raw: string)
    ensures AllDigits(SanitizeMobile(raw)) && |SanitizeMobile(raw)| <= 10
    ensures AllDigits(SanitizeOtp(raw)) && |SanitizeOtp(raw)| <= 6
    ensures SanitizeOtp(raw) <= SanitizeMobile(raw)
  {
  }

  // ---------------------------------------------------------------------------
  // Handlers

  /**
   * `handleSendOTP`: with a ten-digit mobile number start sending (the page
   * shows "Sending..." until the timer fires); otherwise show an error and
   * change nothing.
   */
  function SendOtp(f: LoginForm): (r: LoginForm)
    ensures r.otpSent == f.otpSent && r.mobile == f.mobile
    ensures |f.mobile| == MobileLength ==> r.isLoading && r == f.(isLoading := true)
    ensures |f.mobile| != MobileLength ==> r == f
  {
    if |f.mobile| == MobileLength then f.(isLoading := true) else f
  }

  /** The toast `handleSendOTP` shows right away: an error, or none until the timer fires. */
  function SendOtpNotice(f: LoginForm): (n: Notice)
    ensures n == NoNotice || n == InvalidMobile
    ensures n == InvalidMobile <==> |f.mobile| != MobileLength
    ensures n == InvalidMobile ==> SendOtp(f) == f
    ensures n == NoNotice ==> SendOtp(f).isLoading
  {
    if |f.mobile| == MobileLength then NoNotice else InvalidMobile
  }

  /** The "Get OTP" button is enabled. */
  predicate SendOtpEnabled(f: LoginForm) {
    |f.mobile| == MobileLength && !f.isLoading
  }

  /** `handleTabChange`: change mode and clear password, OTP and the sent flag. */
  function TabChange(f: LoginForm, target: LoginMethod): (r: LoginForm)
    ensures r.loginMethod == target
    ensures r.password == "" && r.otp == "" && !r.otpSent
    ensures r.mobile == f.mobile && r.isLoading == f.isLoading
  {
    f.(loginMethod := target, otpSent := false, otp := "", password := "")
  }

  /** The password field is only rendered on the password tab. */
  predicate PasswordShown(f: LoginForm) {
    f.loginMethod == PasswordLogin
  }

  /** The OTP field is only rendered on the OTP tab once an OTP has been sent. */
  predicate OtpShown(f: LoginForm) {
    f.loginMethod == OtpLogin && f.otpSent
  }

  /** The "Get OTP" button is only rendered on the OTP tab. */
  predicate SendOtpShown(f: LoginForm) {
    f.loginMethod == OtpLogin
  }

  /**
   * The page's state after one user action or timer callback. Typing into a
   * field that is not rendered, or clicking a button that is not rendered or
   * is disabled, changes nothing.
   */
  function Step(f: LoginForm, e: LoginEvent): LoginForm {
    match e
    case TypeMobile(raw) => f.(mobile := SanitizeMobile(raw))
    case TypePassword(raw) => if PasswordShown(f) then f.(password := raw) else f
    case TypeOtp(raw) => if OtpShown(f) then f.(otp := SanitizeOtp(Utf16Take(raw, OtpLength))) else f
    case ClickSendOtp => if SendOtpShown(f) && SendOtpEnabled(f) then SendOtp(f) else f
    case OtpTimerFires => if f.isLoading then f.(otpSent := true, isLoading := false) else f
    case SwitchTab(target) => TabChange(f, target)
  }

  /** The state after a sequence of events. */
  function Run(f: LoginForm, events: seq<LoginEvent>): LoginForm
    decreases |events|
  {
    if events == [] then f else Run(Step(f, events[0]), events[1..])
  }

  /** The conditions under which `handleSubmit` logs in. */
  predicate SubmitAccepted(f: LoginForm) {
    && |f.mobile| == MobileLength
    && (f.loginMethod == PasswordLogin ==> f.password != "")
    && (f.loginMethod == OtpLogin ==> |f.otp| == OtpLength)
  }

  /**
   * `handleSubmit`: the mobile number is checked first, then the password
   * (password mode) or the OTP length (OTP mode). It never looks at `otpSent`.
   */
  function Submit(f: LoginForm): (n: Notice)
    ensures n == LoginSucceeded <==> SubmitAccepted(f)
    ensures |f.mobile| != MobileLength ==> n == InvalidMobile
    ensures |f.mobile| == MobileLength && f.loginMethod == PasswordLogin && f.password == "" ==> n == PasswordRequired
    ensures |f.mobile| == MobileLength && f.loginMethod == OtpLogin && |f.otp| != OtpLength ==> n == InvalidOtp
  {
    if |f.mobile| != MobileLength then InvalidMobile
    else if f.loginMethod == PasswordLogin && f.password == "" then PasswordRequired
    else if f.loginMethod == OtpLogin && |f.otp| != OtpLength then InvalidOtp
    else LoginSucceeded
  }

  /** The submit button is enabled. */
  predicate SubmitEnabled(f: LoginForm) {
    !(|f.mobile| != MobileLength
      || (f.loginMethod == PasswordLogin && f.password == "")
      || (f.loginMethod == OtpLogin && (!f.otpSent || |f.otp| != OtpLength)))
  }

  // ---------------------------------------------------------------------------
  // Properties

  /** The mobile number and OTP held by the page are digit strings within their lengths. */
  predicate WellFormed(f: LoginForm) {
    && AllDigits(f.mobile) && |f.mobile| <= MobileLength
    && AllDigits(f.otp) && |f.otp| <= OtpLength
  }

  /** Every event keeps the page well formed. */
  lemma StepPreservesWellFormed(f: LoginForm, e: LoginEvent)
    requires WellFormed(f)
    ensures WellFormed(Step(f, e))
  {
  }

  /** The empty page is well formed. */
  lemma InitialLoginWellFormed()
    ensures WellFormed(InitialLogin)
    ensures !SubmitEnabled(InitialLogin)
  {
  }

  /**
   * On a well-formed page the mobile number and the OTP are ASCII digits, for
   * which JavaScript's `.length` is the number of characters.
   */
  lemma WellFormedLengthsAreJsLengths(f: LoginForm)
    requires WellFormed(f)
    ensures Utf16Length(f.mobile) == |f.mobile| && Utf16Length(f.otp) == |f.otp|
  {
    Utf16LengthOfBmp(f.mobile);
    Utf16LengthOfBmp(f.otp);
  }

  /** Controls that the current tab does not render ignore input. */
  lemma HiddenControlsIgnored(f: LoginForm, raw: string)
    ensures f.loginMethod == PasswordLogin ==> Step(f, ClickSendOtp) == f && Step(f, TypeOtp(raw)) == f
    ensures f.loginMethod == OtpLogin ==> Step(f, TypePassword(raw)) == f
    ensures !f.otpSent ==> Step(f, TypeOtp(raw)) == f
  {
  }

  /** With no timer pending, the timer event changes nothing. */
  lemma IdleTimerIgnored(f: LoginForm)
    requires !f.isLoading
    ensures Step(f, OtpTimerFires) == f
  {
  }

  /** Without a click on "Get OTP" no OTP is ever marked as sent, whatever else happens. */
  lemma {:induction false} NoSendNoOtp(f: LoginForm, events: seq<LoginEvent>)
    requires !f.isLoading && !f.otpSent
    requires forall i :: 0 <= i < |events| ==> events[i] != ClickSendOtp
    ensures !Run(f, events).otpSent && !Run(f, events).isLoading
    decreases |events|
  {
    if events != [] {
      assert events[0] != ClickSendOtp;
      assert forall i :: 0 <= i < |events[1..]| ==> events[1..][i] == events[i + 1];
      NoSendNoOtp(Step(f, events[0]), events[1..]);
    }
  }

  /** No sequence of events breaks the invariant once it holds, as it does on the empty page. */
  lemma {:induction false} RunPreservesWellFormed(f: LoginForm, events: seq<LoginEvent>)
    requires WellFormed(f)
    ensures WellFormed(Run(f, events))
    decreases |events|
  {
    if events != [] {
      StepPreservesWellFormed(f, events[0]);
      RunPreservesWellFormed(Step(f, events[0]), events[1..]);
    }
  }

  /**
   * The OTP field's `maxLength` cuts pasted text before the sanitiser sees
   * it: "ab123456" keeps "ab1234", whose digits are "1234", too short to log in.
   */
  lemma PastedOtpCutFirst(f: LoginForm, raw: string)
    requires OtpShown(f) && raw == "ab123456"
    ensures Step(f, TypeOtp(raw)).otp == "1234"
    ensures Submit(Step(f, TypeOtp(raw))) != LoginSucceeded
  {
    var cut := raw[..6];
    Utf16TakeOfBmp(raw, OtpLength);
    assert KeepDigits(cut) == "1234" by {
      FilterDropsHead('a', cut[1..], IsDigit);
      FilterDropsHead('b', cut[2..], IsDigit);
      FilterKeepsAll(cut[2..], IsDigit);
    }
  }

  /** An OTP is only ever typed once one has been sent: the field is hidden before, and a tab switch clears both. */
  predicate OtpOnlyAfterSend(f: LoginForm) {
    f.otp != "" ==> f.otpSent
  }

  /** Every event keeps a typed OTP tied to a sent one. */
  lemma StepKeepsOtpOnlyAfterSend(f: LoginForm, e: LoginEvent)
    requires OtpOnlyAfterSend(f)
    ensures OtpOnlyAfterSend(Step(f, e))
  {
  }

  /**
   * From the empty page no sequence of events reaches an OTP without a sent
   * one, so the handler's missing `otpSent` check never lets an unsent OTP in.
   */
  lemma {:induction false} RunKeepsOtpOnlyAfterSend(f: LoginForm, events: seq<LoginEvent>)
    requires OtpOnlyAfterSend(f)
    ensures OtpOnlyAfterSend(Run(f, events))
    decreases |events|
  {
    if events != [] {
      StepKeepsOtpOnlyAfterSend(f, events[0]);
      RunKeepsOtpOnlyAfterSend(Step(f, events[0]), events[1..]);
    }
  }

  /** On every page state reachable from the empty page, an accepted OTP login had its OTP sent. */
  lemma ReachableOtpLoginWasSent(events: seq<LoginEvent>)
    ensures var f := Run(InitialLogin, events);
            f.loginMethod == OtpLogin && Submit(f) == LoginSucceeded ==> f.otpSent
  {
    RunKeepsOtpOnlyAfterSend(InitialLogin, events);
  }

  /** An enabled submit button always leads to a successful login. */
  lemma SubmitEnabledAccepted(f: LoginForm)
    requires SubmitEnabled(f)
    ensures Submit(f) == LoginSucceeded
  {
  }

  /** The converse fails: the handler itself accepts a six-digit OTP that was never sent. */
  lemma SubmitIgnoresOtpSent()
    ensures var f := LoginForm(OtpLogin, "9876543210", "", "123456", false, false);
            Submit(f) == LoginSucceeded && !SubmitEnabled(f)
  {
  }

  /** An enabled "Get OTP" button always starts sending, with no error toast. */
  lemma SendOtpEnabledProceeds(f: LoginForm)
    requires SendOtpEnabled(f)
    ensures SendOtp(f).isLoading && SendOtpNotice(f) == NoNotice
  {
  }

  /** After a tab switch no OTP login is possible until an OTP is sent and typed again. */
  lemma TabChangeNeedsNewOtp(f: LoginForm)
    ensures !SubmitEnabled(TabChange(f, OtpLogin))
    ensures Submit(TabChange(f, OtpLogin)) != LoginSucceeded
    ensures Submit(TabChange(f, PasswordLogin)) != LoginSucceeded
  {
  }
}

=== FILE: maybe.dfy ===
/**
 * A value that may be missing: an entry `find` does not locate, a plan absent
 * from the navigation state, a field left empty, or the NaN of a failed parse.
 */
module Maybe {

  datatype Option<T> = None | Some(value: T)

  /** JavaScript's `x || fallback` where `x` is either missing or a usable value. */
  function OrElse<T>(x: Option<T>, fallback: T): T {
    if x.Some? then x.value else fallback
  }
}

=== FILE: money.dfy ===
/** Exact decimal money arithmetic and JavaScript's `Math.round`. */
module Money {

  /** `Math.round`: the nearest integer, with halves rounded toward +infinity. */
  function Round(x: real): (n: int)
    ensures n as real - 0.5 <= x < n as real + 0.5
  {
    (x + 0.5).Floor
  }

  /** At most one integer lies within half a unit of a real, so `Round` is determined by its contract. */
  lemma RoundUnique(x: real, n: int)
    requires n as real - 0.5 <= x < n as real + 0.5
    ensures Round(x) == n
  {
  }

  /** Rounding never reverses the order of two amounts. */
  lemma RoundMonotone(x: real, y: real)
    requires x <= y
    ensures Round(x) <= Round(y)
  {
  }

  /** Whole amounts pass through rounding unchanged. */
  lemma RoundOfInteger(n: int)
    ensures Round(n as real) == n
  {
    RoundUnique(n as real, n);
  }

  /** Halves go up, also for negative amounts: `Math.round(-2.5)` is -2. */
  lemma RoundHalvesUp()
    ensures Round(2.5) == 3
    ensures Round(0.5) == 1
    ensures Round(-2.5) == -2
  {
    RoundUnique(2.5, 3);
    RoundUnique(0.5, 1);
    RoundUnique(-2.5, -2);
  }
}

=== FILE: payment.dfy ===
/**
 * The payment page: reading the premium out of the plan's display string,
 * adding 18% GST, and the checks `handlePayment` makes before it starts
 * processing a payment.
 */
module Payment {
  import opened Maybe
  import opened Money
  import opened Sequences
  import opened Text

  /** The plan handed over in the navigation state; amounts are display strings such as "₹1,200". */
  datatype PlanSummary = PlanSummary(name: string, premium: string, sumInsured: string)

  /** The plan shown when the page is opened without one. */
  const DefaultPlan: PlanSummary := PlanSummary("Standard Protection", "\U{20B9}1,200", "\U{20B9}1,00,000")

  /** The plan the page shows: the one it was given, otherwise the default. */
  function PlanOf(navigationPlan: Option<PlanSummary>): (p: PlanSummary)
    ensures navigationPlan.Some? ==> p == navigationPlan.value
    ensures navigationPlan.None? ==> p.premium == "\U{20B9}1,200"
  {
    OrElse(navigationPlan, DefaultPlan)
  }

  // ---------------------------------------------------------------------------
  // Premium parsing

  /** The rupee sign and the digit-group separator, the two characters `parsePremium` deletes. */
  predicate IsCurrencyMark(c: char) {
    c == '\U{20B9}' || c == ','
  }

  /** Keeps a character that is not a currency mark. */
  predicate NotCurrencyMark(c: char) {
    !IsCurrencyMark(c)
  }

  /** `s.replace(/[₹,]/g, "")`. */
  function StripCurrency(s: string): (r: string)
    ensures forall i :: 0 <= i < |r| ==> r[i] in s && !IsCurrencyMark(r[i])
    ensures forall c :: c in r <==> c in s && !IsCurrencyMark(c)
  {
    FilterMembers(s, NotCurrencyMark);
    Filter(s, NotCurrencyMark)
  }

  /** Stripping works piece by piece, so every other character keeps its place. */
  lemma StripCurrencyConcat(a: string, b: string)
    ensures StripCurrency(a + b) == StripCurrency(a) + StripCurrency(b)
  {
    FilterConcat(a, b, NotCurrencyMark);
  }

  /**
   * `parsePremium`: delete every `₹` and `,`, read a base-10 integer, and fall
   * back to 0 when nothing can be read (`NaN || 0`).
   */
  function ParsePremium(s: string): (n: int)
    ensures (forall i :: 0 <= i < |s| ==> !IsDigit(s[i])) ==> n == 0
  {
    OrElse(ParseInt(StripCurrency(s)), 0)
  }

  /** An amount written with digits, `₹` and `,` only reads as its digits, wherever the marks stand. */
  lemma ParsePremiumOfAmount(s: string)
    requires forall i :: 0 <= i < |s| ==> IsDigit(s[i]) || IsCurrencyMark(s[i])
    requires exists i :: 0 <= i < |s| && IsDigit(s[i])
    ensures AllDigits(StripCurrency(s))
    ensures ParsePremium(s) == DigitsValue(StripCurrency(s))
  {
    var t := StripCurrency(s);
    var k :| 0 <= k < |s| && IsDigit(s[k]);
    assert s[k] in t;
    ParseIntStopsAtNonDigit(t, []);
    assert t + [] == t;
  }

  /**
   * A premium string that `parseInt` cannot read once `₹` and `,` are gone
   * (after leading whitespace and a sign there is no digit) costs 0.
   */
  lemma ParsePremiumUnreadable(s: string, ws: string, sign: string, rest: string)
    requires StripCurrency(s) == ws + sign + rest
    requires LeadingParts(ws, sign, rest)
    requires rest == [] || !IsDigit(rest[0])
    ensures ParsePremium(s) == 0
  {
    ParseIntNaN(ws, sign, rest);
  }

  /**
   * A premium written with a leading letter, such as "Rs 1,200", costs 0:
   * `parseInt` stops at the letter.
   */
  lemma ParsePremiumLeadingLetter(c: char, s: string)
    requires !IsDigit(c) && !IsJsWhitespace(c) && !IsSign(c) && !IsCurrencyMark(c)
    ensures ParsePremium([c] + s) == 0
  {
    var none: string := [];
    var rest := [c] + StripCurrency(s);
    FilterKeepsPrefix([c], s, NotCurrencyMark);
    assert StripCurrency([c] + s) == none + none + rest;
    ParsePremiumUnreadable([c] + s, none, none, rest);
  }

  /** Removing the rupee sign and one separator from "₹" + d1 + "," + d2 leaves the digits d1 + d2. */
  lemma StripGrouped(d1: string, d2: string)
    requires AllDigits(d1) && AllDigits(d2)
    ensures StripCurrency(['\U{20B9}'] + d1 + [','] + d2) == d1 + d2
  {
    assert ['\U{20B9}'] + d1 + [','] + d2 == ['\U{20B9}'] + (d1 + ([','] + d2));
    FilterDropsHead('\U{20B9}', d1 + ([','] + d2), NotCurrencyMark);
    FilterKeepsPrefix(d1, [','] + d2, NotCurrencyMark);
    FilterDropsHead(',', d2, NotCurrencyMark);
    FilterKeepsAll(d2, NotCurrencyMark);
  }

  /** An amount written as "₹" + d1 + "," + d2 reads as the number the digits d1 + d2 spell. */
  lemma ParsePremiumGrouped(d1: string, d2: string)
    requires |d1| >= 1 && AllDigits(d1) && AllDigits(d2)
    ensures ParsePremium(['\U{20B9}'] + d1 + [','] + d2) == DigitsValue(d1 + d2)
  {
    var s := ['\U{20B9}'] + d1 + [','] + d2;
    StripGrouped(d1, d2);
    assert IsDigit(s[1]);
    ParsePremiumOfAmount(s);
  }

  /** "₹1,200" reads as 1200. */
  lemma ParsePremiumExample(s: string)
    requires s == "\U{20B9}1,200"
    ensures ParsePremium(s) == 1200
  {
    var d1, d2 := s[1..2], s[3..];
    assert d1 == "1";
    assert d2 == "200";
    assert s == ['\U{20B9}'] + d1 + [','] + d2;
    ParsePremiumGrouped(d1, d2);
    TwelveHundred(d1, d2);
  }

  lemma TwelveHundred(d1: string, d2: string)
    requires d1 == "1" && d2 == "200"
    ensures AllDigits(d1 + d2) && DigitsValue(d1 + d2) == 1200
  {
    assert NatToDigits(1200) == d1 + d2;
    DigitsRoundTrip(1200);
  }

  // ---------------------------------------------------------------------------
  // Order total

  const GstRate: real := 0.18

  /** The premium, the GST on it and the amount payable. */
  datatype OrderTotal = OrderTotal(premium: int, gst: int, total: int)

  /** The GST is the premium's 18% rounded to a whole rupee, and the total adds it to the premium. */
  function ComputeOrder(premium: int): (o: OrderTotal)
    ensures o.premium == premium
    ensures o.gst as real - 0.5 <= premium as real * GstRate < o.gst as real + 0.5
    ensures o.total == o.premium + o.gst
  {
    var gstAmount := Round(premium as real * GstRate);
    OrderTotal(premium, gstAmount, premium + gstAmount)
  }

  /** The order the page computes for a plan. */
  function OrderFor(plan: PlanSummary): OrderTotal {
    ComputeOrder(ParsePremium(plan.premium))
  }

  /** For a non-negative premium the GST is at most the premium and the total at most twice it. */
  lemma GstBounds(premium: int)
    requires premium >= 0
    ensures 0 <= ComputeOrder(premium).gst <= premium
    ensures premium <= ComputeOrder(premium).total <= 2 * premium
  {
  }

  /** A larger premium never gives smaller GST or a smaller total. */
  lemma OrderMonotone(p: int, q: int)
    requires p <= q
    ensures ComputeOrder(p).gst <= ComputeOrder(q).gst
    ensures ComputeOrder(p).total <= ComputeOrder(q).total
  {
    RoundMonotone(p as real * GstRate, q as real * GstRate);
  }

  /** Nothing to pay means no tax and no total. */
  lemma ZeroOrder()
    ensures ComputeOrder(0) == OrderTotal(0, 0, 0)
  {
    RoundOfInteger(0);
  }

  /** Without a plan in the navigation state, the default ₹1,200 plan gives GST 216 and total 1416. */
  lemma DefaultPlanOrder()
    ensures OrderFor(PlanOf(None)) == OrderTotal(1200, 216, 1416)
  {
    ParsePremiumExample(PlanOf(None).premium);
    RoundOfInteger(216);
  }

  // ---------------------------------------------------------------------------
  // Payment validation

  datatype PayMethod = Upi | GooglePay | PhonePe | NetBanking | BankTransfer

  const Banks: seq<string> := [
    "State Bank of India", "HDFC Bank", "ICICI Bank", "Axis Bank",
    "Punjab National Bank", "Bank of Baroda", "Canara Bank", "Union Bank of India"
  ]

  /** The selections on the page; `bank` is empty until a bank tile is clicked. */
  datatype PaymentForm = PaymentForm(selected: Option<PayMethod>, upiId: string, bank: string, processing: bool)

  const InitialPaymentForm: PaymentForm := PaymentForm(None, "", "", false)

  /** What `handlePayment` decides: one of three error toasts, or start processing. */
  datatype PaymentCheck = SelectMethodFirst | EnterUpiId | SelectBankFirst | Proceed

  /** A method is chosen, and the field it needs, if any, is filled in. */
  predicate ReadyToPay(f: PaymentForm) {
    && f.selected.Some?
    && (f.selected.value == Upi ==> f.upiId != "")
    && (f.selected.value == NetBanking ==> f.bank != "")
  }

  /**
   * The checks of `handlePayment`, in their order: a method must be chosen
   * before anything else is looked at; UPI needs a non-empty UPI ID; net
   * banking needs a bank. Google Pay, PhonePe and bank transfer need nothing more.
   */
  function CheckPayment(f: PaymentForm): (r: PaymentCheck)
    ensures r == SelectMethodFirst <==> f.selected.None?
    ensures r == EnterUpiId <==> f.selected == Some(Upi) && f.upiId == ""
    ensures r == SelectBankFirst <==> f.selected == Some(NetBanking) && f.bank == ""
    ensures r == Proceed <==> ReadyToPay(f)
  {
    if f.selected.None? then SelectMethodFirst
    else if f.selected.value == Upi && f.upiId == "" then EnterUpiId
    else if f.selected.value == NetBanking && f.bank == "" then SelectBankFirst
    else Proceed
  }

  /** `handlePayment`: start processing when the checks pass, otherwise change nothing. */
  function HandlePayment(f: PaymentForm): (r: PaymentForm)
    ensures ReadyToPay(f) ==> r == f.(processing := true)
    ensures !ReadyToPay(f) ==> r == f
  {
    if CheckPayment(f) == Proceed then f.(processing := true) else f
  }

  /** The pay button is disabled only while a payment is processing. */
  predicate PayEnabled(f: PaymentForm) {
    !f.processing
  }

  /** The page opens with the pay button enabled and no method chosen, so a first click asks for one. */
  lemma InitialPaymentAsksForMethod()
    ensures PayEnabled(InitialPaymentForm)
    ensures CheckPayment(InitialPaymentForm) == SelectMethodFirst
    ensures HandlePayment(InitialPaymentForm) == InitialPaymentForm
  {
  }

  /** Every bank tile names a bank, so net banking with a bank picked from the list goes ahead. */
  lemma ListedBankProceeds(f: PaymentForm, i: nat)
    requires i < |Banks| && f.selected == Some(NetBanking) && f.bank == Banks[i]
    ensures CheckPayment(f) == Proceed
  {
    assert forall k :: 0 <= k < |Banks| ==> |Banks[k]| > 0;
  }

  /** A payment that starts disables the pay button, so it cannot be started a second time. */
  lemma StartedPaymentDisablesPay(f: PaymentForm)
    requires ReadyToPay(f)
    ensures !PayEnabled(HandlePayment(f))
  {
  }

  /** The UPI ID is only tested for being non-empty: any two non-empty IDs are treated alike. */
  lemma UpiIdContentIgnored(f: PaymentForm, id1: string, id2: string)
    requires id1 != "" && id2 != ""
    ensures CheckPayment(f.(upiId := id1)) == CheckPayment(f.(upiId := id2))
  {
  }

  /** Without a method, no UPI ID or bank, however filled in, lets a payment start. */
  lemma NoMethodRejectedFirst(upiId: string, bank: string, processing: bool)
    ensures CheckPayment(PaymentForm(None, upiId, bank, processing)) == SelectMethodFirst
    ensures HandlePayment(PaymentForm(None, upiId, bank, processing)).processing == processing
  {
  }
}

=== FILE: register.dfy ===
/**
 * The registration form: the send-OTP guard, the state/district dependency,
 * the enabling conditions of its two buttons and the submit handler, which
 * validates nothing itself.
 *
 * Events model what the rendered page lets through: a click on a disabled
 * button does nothing, the OTP field only takes input once an OTP is sent,
 * the district drop-down offers only the districts of the chosen state, and
 * a text field with `maxLength` keeps text up to that many UTF-16 code units.
 * The page compares `.length`, so lengths here are `Utf16Length`.
 */
module Register {
  import opened Text

  const States: seq<string> := ["Karnataka", "Maharashtra", "Andhra Pradesh", "Tamil Nadu", "Telangana"]

  const Districts: map<string, seq<string>> := map[
    "Karnataka" := ["Bengaluru Rural", "Bengaluru Urban", "Mandya", "Raichur", "Mysuru", "Hassan"],
    "Maharashtra" := ["Pune", "Nashik", "Nagpur", "Aurangabad"],
    "Andhra Pradesh" := ["Guntur", "Krishna", "Kurnool", "Anantapur"],
    "Tamil Nadu" := ["Chennai", "Coimbatore", "Madurai", "Salem"],
    "Telangana" := ["Hyderabad", "Warangal", "Nizamabad", "Karimnagar"]
  ]

  const MobileMaxLength: nat := 10
  const OtpMaxLength: nat := 6

  datatype RegisterForm = RegisterForm(
    name: string, mobile: string, otp: string, password: string,
    state: string, district: string, language: string,
    agreeTerms: bool, otpSent: bool)

  const InitialRegister: RegisterForm := RegisterForm("", "", "", "", "", "", "", false, false)

  /** What a user can do on the page. */
  datatype RegisterEvent =
    | TypeName(raw: string)
    | TypeMobile(raw: string)
    | TypeOtp(raw: string)
    | TypePassword(raw: string)
    | PickState(state: string)
    | PickDistrict(district: string)
    | PickLanguage(language: string)
    | SetTerms(agree: bool)
    | ClickGetOtp
    | ClickCreateAccount

  // ---------------------------------------------------------------------------
  // Handlers

  /** `handleSendOTP`: mark the OTP as sent when the mobile field's `.length` is exactly ten. */
  function SendOtp(f: RegisterForm): (r: RegisterForm)
    ensures r.otpSent <==> f.otpSent || Utf16Length(f.mobile) == MobileMaxLength
    ensures r.(otpSent := f.otpSent) == f
  {
    if Utf16Length(f.mobile) == MobileMaxLength then f.(otpSent := true) else f
  }

  /** The "Get OTP" button is enabled. */
  predicate GetOtpEnabled(f: RegisterForm) {
    Utf16Length(f.mobile) == MobileMaxLength && !f.otpSent
  }

  /** Choosing a state clears the district and keeps every other field. */
  function SelectState(f: RegisterForm, state: string): (r: RegisterForm)
    ensures r.state == state && r.district == ""
    ensures r.(state := f.state, district := f.district) == f
  {
    f.(state := state, district := "")
  }

  /** The districts the district drop-down offers for a state. */
  function DistrictChoices(state: string): (ds: seq<string>)
    ensures state == "" ==> ds == []
    ensures state !in Districts ==> ds == []
    ensures state != "" && state in Districts ==> ds == Districts[state]
  {
    if state != "" && state in Districts then Districts[state] else []
  }

  /** The district drop-down is enabled. */
  predicate DistrictEnabled(f: RegisterForm) {
    f.state != ""
  }

  /** The "Create Account" button is enabled. */
  predicate CreateEnabled(f: RegisterForm) {
    f.agreeTerms && f.otpSent
  }

  /** The browser's check of the `required` text fields; the OTP field is only present once an OTP is sent. */
  predicate RequiredFilled(f: RegisterForm) {
    f.name != "" && f.mobile != "" && f.password != "" && (f.otpSent ==> f.otp != "")
  }

  /** `handleSubmit`: reports success whatever the form holds. */
  function HandleSubmit(f: RegisterForm): (registered: bool)
    ensures registered
  {
    true
  }

  /** The page's state after one event, with disabled controls ignoring it. */
  function Step(f: RegisterForm, e: RegisterEvent): RegisterForm {
    match e
    case TypeName(raw) => f.(name := raw)
    case TypeMobile(raw) => f.(mobile := Utf16Take(raw, MobileMaxLength))
    case TypeOtp(raw) => if f.otpSent then f.(otp := Utf16Take(raw, OtpMaxLength)) else f
    case TypePassword(raw) => f.(password := raw)
    case PickState(state) => if state in States then SelectState(f, state) else f
    case PickDistrict(district) =>
      if DistrictEnabled(f) && district in DistrictChoices(f.state) then f.(district := district) else f
    case PickLanguage(language) => f.(language := language)
    case SetTerms(agree) => f.(agreeTerms := agree)
    case ClickGetOtp => if GetOtpEnabled(f) then SendOtp(f) else f
    case ClickCreateAccount => f
  }

  /** Whether an event reaches `handleSubmit`. */
  predicate Submits(f: RegisterForm, e: RegisterEvent) {
    e == ClickCreateAccount && CreateEnabled(f) && RequiredFilled(f)
  }

  /** Whether an event sends an OTP. */
  predicate SendsOtp(f: RegisterForm, e: RegisterEvent) {
    e == ClickGetOtp && GetOtpEnabled(f)
  }

  function Run(f: RegisterForm, events: seq<RegisterEvent>): RegisterForm
    decreases |events|
  {
    if events == [] then f else Run(Step(f, events[0]), events[1..])
  }

  /** How many OTPs a sequence of events sends. */
  function SendCount(f: RegisterForm, events: seq<RegisterEvent>): nat
    decreases |events|
  {
    if events == [] then 0
    else (if SendsOtp(f, events[0]) then 1 else 0) + SendCount(Step(f, events[0]), events[1..])
  }

  // ---------------------------------------------------------------------------
  // Properties

  /** Once sent, an OTP stays sent: no event clears the flag. */
  lemma OtpSentIsStable(f: RegisterForm, e: RegisterEvent)
    requires f.otpSent
    ensures Step(f, e).otpSent
  {
  }

  /** A click on an enabled "Get OTP" button sends, and disables the button. */
  lemma GetOtpEnabledSends(f: RegisterForm)
    requires GetOtpEnabled(f)
    ensures Step(f, ClickGetOtp).otpSent
    ensures !GetOtpEnabled(Step(f, ClickGetOtp))
  {
  }

  /** However the user clicks, at most one OTP is ever sent, and none once one has been. */
  lemma {:induction false} AtMostOneSend(f: RegisterForm, events: seq<RegisterEvent>)
    ensures SendCount(f, events) <= 1
    ensures f.otpSent ==> SendCount(f, events) == 0
    decreases |events|
  {
    if events != [] {
      var g := Step(f, events[0]);
      AtMostOneSend(g, events[1..]);
      if SendsOtp(f, events[0]) {
        assert g.otpSent;
      } else if f.otpSent {
        OtpSentIsStable(f, events[0]);
      }
    }
  }

  /** The district, when set, is one of the chosen state's districts. */
  predicate DistrictConsistent(f: RegisterForm) {
    f.district == "" || (f.state in Districts && f.district in Districts[f.state])
  }

  /** Every event keeps the district consistent with the state. */
  lemma StepKeepsDistrictConsistent(f: RegisterForm, e: RegisterEvent)
    requires DistrictConsistent(f)
    ensures DistrictConsistent(Step(f, e))
  {
  }

  /** The `maxLength` limits hold in every state the page reaches. */
  lemma StepKeepsLengthLimits(f: RegisterForm, e: RegisterEvent)
    requires Utf16Length(f.mobile) <= MobileMaxLength && Utf16Length(f.otp) <= OtpMaxLength
    ensures Utf16Length(Step(f, e).mobile) <= MobileMaxLength && Utf16Length(Step(f, e).otp) <= OtpMaxLength
  {
  }

  /** A mobile number typed within the limit is kept whole. */
  lemma TypedMobileWithinLimitKept(f: RegisterForm, raw: string)
    requires Utf16Length(raw) <= MobileMaxLength
    ensures Step(f, TypeMobile(raw)).mobile == raw
  {
    Utf16TakeFits(raw, MobileMaxLength);
  }

  /**
   * Five characters outside the Basic Multilingual Plane, such as emoji, have
   * `.length` ten: the button is enabled and an OTP is sent.
   */
  lemma AstralMobileSends(f: RegisterForm, c: char)
    requires c as int >= 0x1_0000 && f.mobile == [c, c, c, c, c] && !f.otpSent
    ensures GetOtpEnabled(f)
    ensures Step(f, ClickGetOtp).otpSent
  {
    var s := f.mobile;
    assert Utf16Length(s[4..]) == 2;
    assert Utf16Length(s[3..]) == 4 by { assert s[3..][1..] == s[4..]; }
    assert Utf16Length(s[2..]) == 6 by { assert s[2..][1..] == s[3..]; }
    assert Utf16Length(s[1..]) == 8 by { assert s[1..][1..] == s[2..]; }
  }

  /** Before an OTP is sent the OTP field is not rendered, so typing there changes nothing. */
  lemma OtpFieldHiddenUntilSent(f: RegisterForm, raw: string)
    requires !f.otpSent
    ensures Step(f, TypeOtp(raw)) == f
  {
  }

  /** Every state in the state list has districts to choose from. */
  lemma EveryStateHasDistricts(i: nat)
    requires i < |States|
    ensures States[i] != "" && States[i] in Districts && |DistrictChoices(States[i])| > 0
  {
  }

  /** Without a state the district drop-down is disabled and offers nothing, so no district can be picked. */
  lemma NoStateNoDistrict(f: RegisterForm, d: string)
    requires f.state == ""
    ensures !DistrictEnabled(f) && DistrictChoices(f.state) == []
    ensures Step(f, PickDistrict(d)) == f
  {
  }

  /** An account is only ever created with the terms accepted and an OTP sent. */
  lemma SubmitNeedsTermsAndOtp(f: RegisterForm, e: RegisterEvent)
    requires Submits(f, e)
    ensures f.agreeTerms && f.otpSent && HandleSubmit(f)
  {
  }

  /**
   * Nothing checks the content of the mobile number or the OTP: ten letters
   * get an OTP sent, and a one-letter OTP is then accepted.
   */
  lemma MobileNotDigitChecked(mobile: string)
    requires mobile == "abcdefghij"
    ensures Run(InitialRegister, [TypeMobile(mobile), ClickGetOtp]).otpSent
    ensures var f := RegisterForm("a", mobile, "x", "p", "", "", "", true, true);
            Submits(f, ClickCreateAccount) && HandleSubmit(f)
  {
    Utf16LengthOfBmp(mobile);
    TypedMobileWithinLimitKept(InitialRegister, mobile);
    var f1 := Step(InitialRegister, TypeMobile(mobile));
    assert f1.mobile == mobile;
    assert GetOtpEnabled(f1);
    assert [TypeMobile(mobile), ClickGetOtp][1..] == [ClickGetOtp];
    assert Run(InitialRegister, [TypeMobile(mobile), ClickGetOtp]) == Run(f1, [ClickGetOtp]);
  }
}

=== FILE: sequences.dfy ===
/** Generic operations on sequences that the pages' string and list handling share. */
module Sequences {

  /**
   * `s` with every element that fails `keep` removed, the rest in their
   * original order: `Array.prototype.filter`, and `s.replace(/[class]/g, "")`
   * for the class of characters that fail `keep`.
   */
  function Filter<T>(s: seq<T>, keep: T -> bool): (r: seq<T>)
    ensures |r| <= |s|
    ensures forall i :: 0 <= i < |r| ==> keep(r[i]) && r[i] in s
  {
    if s == [] then []
    else (if keep(s[0]) then [s[0]] else []) + Filter(s[1..], keep)
  }

  /** An element survives filtering exactly when it occurs in the input and is kept. */
  lemma {:induction false} FilterMembers<T>(s: seq<T>, keep: T -> bool)
    ensures forall c :: c in Filter(s, keep) <==> c in s && keep(c)
  {
    if s != [] {
      FilterMembers(s[1..], keep);
      assert forall c :: c in s <==> c == s[0] || c in s[1..];
    }
  }

  /** Filtering a concatenation filters each part and keeps their order. */
  lemma {:induction false} FilterConcat<T>(a: seq<T>, b: seq<T>, keep: T -> bool)
    ensures Filter(a + b, keep) == Filter(a, keep) + Filter(b, keep)
  {
    if a == [] {
      assert a + b == b;
    } else {
      assert (a + b)[0] == a[0];
      assert (a + b)[1..] == a[1..] + b;
      FilterConcat(a[1..], b, keep);
    }
  }

  /** A sequence none of whose elements is removed passes through unchanged. */
  lemma {:induction false} FilterKeepsAll<T>(s: seq<T>, keep: T -> bool)
    requires forall i :: 0 <= i < |s| ==> keep(s[i])
    ensures Filter(s, keep) == s
  {
    if s != [] {
      assert keep(s[0]);
      FilterKeepsAll(s[1..], keep);
    }
  }

  /** An element that fails `keep` at the front disappears. */
  lemma FilterDropsHead<T>(x: T, rest: seq<T>, keep: T -> bool)
    requires !keep(x)
    ensures Filter([x] + rest, keep) == Filter(rest, keep)
  {
    assert ([x] + rest)[1..] == rest;
  }

  /** A prefix whose elements all pass `keep` is kept whole, in front of what follows. */
  lemma FilterKeepsPrefix<T>(a: seq<T>, rest: seq<T>, keep: T -> bool)
    requires forall i :: 0 <= i < |a| ==> keep(a[i])
    ensures Filter(a + rest, keep) == a + Filter(rest, keep)
  {
    FilterConcat(a, rest, keep);
    FilterKeepsAll(a, keep);
  }

  /** Filtering twice removes nothing more than filtering once. */
  lemma FilterIdempotent<T>(s: seq<T>, keep: T -> bool)
    ensures Filter(Filter(s, keep), keep) == Filter(s, keep)
  {
    FilterKeepsAll(Filter(s, keep), keep);
  }

  /** The first `n` elements of `s`, or all of `s` when it is shorter: `s.slice(0, n)`. */
  function Take<T>(s: seq<T>, n: nat): (r: seq<T>)
    ensures r <= s
    ensures |r| == if |s| <= n then |s| else n
  {
    if |s| <= n then s else s[..n]
  }
}

=== FILE: text.dfy ===
/**
 * Character-level string operations shared by the pages: character classes,
 * decimal digit strings and JavaScript's `parseInt(s, 10)`.
 *
 * Strings are sequences of Unicode scalar values, while JavaScript strings
 * are sequences of UTF-16 code units. That makes no difference to the ASCII
 * digits and the characters `₹` and `,` these operations look at; where the
 * pages compare `.length` of free text, `Utf16Length` counts code units.
 */
module Text {
  import opened Maybe
  import opened Sequences

  /** The regular-expression class `[0-9]` (the complement of `\D`). */
  predicate IsDigit(c: char) {
    '0' <= c <= '9'
  }

  predicate AllDigits(s: string) {
    forall i :: 0 <= i < |s| ==> IsDigit(s[i])
  }

  /**
   * The characters `parseInt` skips before a number: ECMAScript's WhiteSpace
   * (tab, vertical tab, form feed, byte-order mark and every space separator)
   * and LineTerminator code points.
   */
  predicate IsJsWhitespace(c: char) {
    || c == '\t' || c == '\U{000B}' || c == '\U{000C}' || c == ' '
    || c == '\U{00A0}' || c == '\U{1680}' || ('\U{2000}' <= c <= '\U{200A}')
    || c == '\U{202F}' || c == '\U{205F}' || c == '\U{3000}' || c == '\U{FEFF}'
    || c == '\n' || c == '\r' || c == '\U{2028}' || c == '\U{2029}'
  }

  /** Only the ASCII digits of `s`, in their original order. */
  function KeepDigits(s: string): (r: string)
    ensures AllDigits(r)
  {
    Filter(s, IsDigit)
  }

  // ---------------------------------------------------------------------------
  // Scanning and decimal digits

  /** The length of the longest prefix of `s` whose characters all satisfy `p`. */
  function Span(s: string, p: char -> bool): (n: nat)
    ensures n <= |s|
    ensures forall i :: 0 <= i < n ==> p(s[i])
    ensures n < |s| ==> !p(s[n])
  {
    if s == [] || !p(s[0]) then 0 else 1 + Span(s[1..], p)
  }

  function DigitValue(c: char): (d: nat)
    requires IsDigit(c)
    ensures d < 10
  {
    (c as int - '0' as int) as nat
  }

  function DigitChar(d: nat): (c: char)
    requires d < 10
    ensures IsDigit(c) && DigitValue(c) == d
  {
    ('0' as int + d) as char
  }

  function Pow10(n: nat): (p: nat)
    ensures p >= 1
  {
    if n == 0 then 1 else 10 * Pow10(n - 1)
  }

  /** The number a string of decimal digits denotes, most significant digit first. */
  function DigitsValue(ds: string): (v: nat)
    requires AllDigits(ds)
    ensures v < Pow10(|ds|)
  {
    if ds == [] then 0
    else DigitsValue(ds[..|ds| - 1]) * 10 + DigitValue(ds[|ds| - 1])
  }

  /** The shortest decimal digit string of `n`, as `String(n)` writes it. */
  function NatToDigits(n: nat): (ds: string)
    ensures |ds| >= 1
    ensures AllDigits(ds)
  {
    if n < 10 then [DigitChar(n)] else NatToDigits(n / 10) + [DigitChar(n % 10)]
  }

  /** Writing a number in decimal and reading it back gives the number. */
  lemma {:induction false} DigitsRoundTrip(n: nat)
    ensures DigitsValue(NatToDigits(n)) == n
  {
    var ds := NatToDigits(n);
    if n >= 10 {
      DigitsRoundTrip(n / 10);
      assert ds[..|ds| - 1] == NatToDigits(n / 10);
    }
  }

  /** The decimal rendering of an integer, with a leading `-` when it is negative. */
  function IntToString(n: int): (s: string)
    ensures |s| >= 1
  {
    if n < 0 then "-" + NatToDigits(-n) else NatToDigits(n)
  }

  // ---------------------------------------------------------------------------
  // parseInt

  /**
   * `parseInt(s, 10)`: skip leading whitespace, accept one optional `+` or `-`,
   * then read the longest run of decimal digits; NaN (here `None`) when that
   * run is empty. Whatever follows the digits is ignored.
   */
  function ParseInt(s: string): (r: Option<int>)
    ensures r.Some? ==> exists i :: 0 <= i < |s| && IsDigit(s[i])
  {
    var t := s[Span(s, IsJsWhitespace)..];
    if |t| > 0 && IsSign(t[0]) then ReadDigits(t[1..], t[0] == '-') else ReadDigits(t, false)
  }

  /** The digit run at the start of `body`, negated when `negative`; `None` when `body` does not start with a digit. */
  function ReadDigits(body: string, negative: bool): (r: Option<int>)
    ensures r.Some? ==> |body| > 0 && IsDigit(body[0])
  {
    var n := Span(body, IsDigit);
    if n == 0 then None
    else Some(Signed(DigitsValue(body[..n]), negative))
  }

  /** A magnitude with a sign. */
  function Signed(magnitude: nat, negative: bool): int {
    if negative then -(magnitude as int) else magnitude
  }

  /** `parseInt` reads back what `String(n)` writes, for every integer. */
  lemma ParseIntRoundTrip(n: int)
    ensures ParseInt(IntToString(n)) == Some(n)
  {
    var s := IntToString(n);
    var ds := if n < 0 then NatToDigits(-n) else NatToDigits(n);
    assert Span(s, IsJsWhitespace) == 0;
    assert Span(ds, IsDigit) == |ds|;
    assert ds[..|ds|] == ds;
    if n < 0 {
      assert s[1..] == ds;
      DigitsRoundTrip(-n);
    } else {
      DigitsRoundTrip(n);
    }
  }

  /** A prefix satisfying `p`, followed by the end or by a character that fails `p`, is the span. */
  lemma SpanExact(s: string, p: char -> bool, k: nat)
    requires k <= |s|
    requires forall i :: 0 <= i < k ==> p(s[i])
    requires k < |s| ==> !p(s[k])
    ensures Span(s, p) == k
  {
  }

  /** The signs `parseInt` accepts in front of the digits. */
  predicate IsSign(c: char) {
    c == '+' || c == '-'
  }

  /** At most one sign. */
  predicate SignText(sign: string) {
    sign == "" || sign == "+" || sign == "-"
  }

  /**
   * `ws + sign + rest` split where `parseInt` splits it: `ws` is all of the
   * leading whitespace and `sign` is the sign, if there is one.
   */
  predicate LeadingParts(ws: string, sign: string, rest: string) {
    && (forall i :: 0 <= i < |ws| ==> IsJsWhitespace(ws[i]))
    && SignText(sign)
    && (sign == "" && rest != [] ==> !IsJsWhitespace(rest[0]) && !IsSign(rest[0]))
  }

  /** Once the leading whitespace and sign are split off correctly, `parseInt` reads the rest. */
  lemma SplitLeading(ws: string, sign: string, rest: string)
    requires LeadingParts(ws, sign, rest)
    ensures ParseInt(ws + sign + rest) == ReadDigits(rest, sign == "-")
  {
    var s := ws + sign + rest;
    var t := sign + rest;
    assert s == ws + t;
    assert |ws| < |s| ==> s[|ws|] == t[0];
    SpanExact(s, IsJsWhitespace, |ws|);
    assert s[|ws|..] == t;
    assert sign != "" ==> t[1..] == rest;
  }

  /**
   * `parseInt` reads a number: after the leading whitespace and an optional
   * sign come digits, and whatever follows the digits is ignored.
   */
  lemma ParseIntReads(ws: string, sign: string, ds: string, rest: string)
    requires forall i :: 0 <= i < |ws| ==> IsJsWhitespace(ws[i])
    requires SignText(sign)
    requires |ds| >= 1 && AllDigits(ds)
    requires rest == [] || !IsDigit(rest[0])
    ensures ParseInt(ws + sign + (ds + rest)) == Some(Signed(DigitsValue(ds), sign == "-"))
  {
    var body := ds + rest;
    assert body[0] == ds[0];
    SplitLeading(ws, sign, body);
    ReadDigitsRun(ds, rest, sign == "-");
  }

  /** A digit run followed by a non-digit or the end is read as that run. */
  lemma ReadDigitsRun(ds: string, rest: string, negative: bool)
    requires |ds| >= 1 && AllDigits(ds)
    requires rest == [] || !IsDigit(rest[0])
    ensures ReadDigits(ds + rest, negative) == Some(Signed(DigitsValue(ds), negative))
  {
    var body := ds + rest;
    assert forall i :: 0 <= i < |ds| ==> body[i] == ds[i];
    assert |ds| < |body| ==> body[|ds|] == rest[0];
    SpanExact(body, IsDigit, |ds|);
    assert body[..|ds|] == ds;
  }

  /**
   * `parseInt` gives NaN: after the leading whitespace and an optional sign
   * the string ends or goes on with something other than a digit.
   */
  lemma ParseIntNaN(ws: string, sign: string, rest: string)
    requires LeadingParts(ws, sign, rest)
    requires rest == [] || !IsDigit(rest[0])
    ensures ParseInt(ws + sign + rest) == None
  {
    SplitLeading(ws, sign, rest);
  }

  /** Digits followed by anything that does not start with a digit read as those digits alone. */
  lemma ParseIntStopsAtNonDigit(ds: string, rest: string)
    requires |ds| >= 1 && AllDigits(ds)
    requires rest == [] || !IsDigit(rest[0])
    ensures ParseInt(ds + rest) == Some(DigitsValue(ds))
  {
    var none: string := [];
    assert none + none + (ds + rest) == ds + rest;
    SplitLeading(none, none, ds + rest);
    ReadDigitsRun(ds, rest, false);
  }

  // ---------------------------------------------------------------------------
  // UTF-16 lengths

  /** The UTF-16 code units of a character: two outside the Basic Multilingual Plane, otherwise one. */
  function Utf16Units(c: char): (u: nat)
    ensures 1 <= u <= 2
  {
    if c as int >= 0x1_0000 then 2 else 1
  }

  /** JavaScript's `s.length`, which counts UTF-16 code units. */
  function Utf16Length(s: string): (n: nat)
    ensures |s| <= n <= 2 * |s|
  {
    if s == [] then 0 else Utf16Units(s[0]) + Utf16Length(s[1..])
  }

  /** Within the Basic Multilingual Plane `.length` is the number of characters. */
  lemma {:induction false} Utf16LengthOfBmp(s: string)
    requires forall i :: 0 <= i < |s| ==> s[i] as int < 0x1_0000
    ensures Utf16Length(s) == |s|
  {
    if s != [] {
      Utf16LengthOfBmp(s[1..]);
    }
  }

  /**
   * What a text field with `maxLength` keeps of the text typed into it: the
   * longest prefix whose `.length` is within the limit, without splitting a
   * character.
   */
  function Utf16Take(s: string, bound: nat): (r: string)
    ensures r <= s
    ensures Utf16Length(r) <= bound
    ensures |r| < |s| ==> Utf16Length(r) + Utf16Units(s[|r|]) > bound
  {
    if s == [] || Utf16Units(s[0]) > bound then []
    else
      var rest := Utf16Take(s[1..], bound - Utf16Units(s[0]));
      assert ([s[0]] + rest)[1..] == rest;
      [s[0]] + rest
  }

  /** Within the Basic Multilingual Plane `maxLength` keeps the first `bound` characters. */
  lemma {:induction false} Utf16TakeOfBmp(s: string, bound: nat)
    requires forall i :: 0 <= i < |s| ==> s[i] as int < 0x1_0000
    ensures Utf16Take(s, bound) == s[..if bound < |s| then bound else |s|]
  {
    if s != [] && bound > 0 {
      Utf16TakeOfBmp(s[1..], bound - 1);
      assert s[1..][..if bound - 1 < |s| - 1 then bound - 1 else |s| - 1]
        == s[1..if bound < |s| then bound else |s|];
    }
  }

  /** Text within the limit is kept whole. */
  lemma {:induction false} Utf16TakeFits(s: string, bound: nat)
    requires Utf16Length(s) <= bound
    ensures Utf16Take(s, bound) == s
  {
    if s != [] {
      Utf16TakeFits(s[1..], bound - Utf16Units(s[0]));
    }
  }
}
